=== FILE: README.md ===
# Risk-prediction dispatch and merge, modelled in Dafny

This project models `integrated_risk_pred` from the COVID-19 contact-tracing
simulator (`src/covid19sim/models/run.py`). One call of that function is one
round of risk prediction. It works in four stages:

1. **Eligibility.** It builds one request per human whose `time_slots`
   contain the current slot, in population order. Each request carries the
   round's `start`, `current_day`, symptom list, the serialized human, and
   the two experiment settings.
2. **Dispatch.** On the server path it cuts the requests into contiguous
   batches of at most 25, sends each batch through joblib to the inference
   client, and flattens the per-batch answers in batch order. On the
   in-process path it hands the whole list to the engine at once.
3. **Short-circuit.** When the risk model is not `"transformer"`, it returns
   without merging.
4. **Merge.** It folds every present prediction `(name, risk_history,
   clusters)` into `hd[name]`:
   - it writes the window of `H` days into `risk_history_map`;
   - it recomputes the risk level;
   - it writes the same window into `prev_risk_history_map`;
   - it replaces the clusters and sets `last_risk_update`;
   - it empties both message lists of the contact book.

The model is functional. The population is a sequence of `Human` records.
The `hd` dictionary is a `Registry`, a map from name to `AgentState`. Risk
values, cluster payloads, risk levels, messages, serialized states, the
start value and the symptom list are all type parameters. A backend is a
function from a request list to either `Answered(answers)` or
`Unavailable`. `update_risk_level` is a function parameter `levelOf`,
applied to the freshly written history map. The global and experiment
configuration values are passed in as a `Config`. Python exceptions become
`Aborted(error, registry)`, where the registry is the state left behind at
the moment the exception is raised.

Modules: `Records` (data model), `Eligibility`, `Batching`, `Backends`,
`Reconcile` and `Pipeline` (the round as a whole).

Three behaviours of the code are worth stating up front:

- **Non-transformer rounds.** These still dispatch the requests, and only
  skip the merge (lines 41-61). A failing backend therefore aborts such a
  round too.
- **Failures during the merge.** An unknown name raises `KeyError` mid-loop,
  and the results already merged stay merged (lines 63-78). `MergeAll`
  keeps those earlier writes in `Aborted`.
- **Batch size.** It is hard-coded to 25 (line 43). The partition is proved
  for any positive size and used at 25.

Further edge cases of the code are modelled:

- An empty population raises at `humans[0]` (line 20).
- A `risk_history` shorter than `H` raises `IndexError` after its values
  were already written to `risk_history_map` (line 68). Nothing else of that
  human changes.
- Line 68 evaluates `risk_history[i]` before `hd[name]`. So an empty
  `risk_history` with `H >= 1` raises `IndexError` even for an unknown name,
  and an unknown name raises `KeyError` only otherwise.

## Model

| member | source | states |
|---|---|---|
| Eligibility.Select | src/covid19sim/models/run.py:25-27 | the eligible humans are never more than the population |
| Eligibility.SelectCounts | src/covid19sim/models/run.py:25-27 | each scheduled human is kept exactly as many times as it occurs in the population; unscheduled humans are dropped; nothing else appears |
| Eligibility.SelectMembership | src/covid19sim/models/run.py:25-27 | a human is selected if and only if it is in the population and its time slots hold the current slot |
| Eligibility.SelectDistributes | src/covid19sim/models/run.py:25-27 | filtering a concatenated population is concatenating the filtered parts, so population order is kept |
| Eligibility.Requests | src/covid19sim/models/run.py:25-39 | there are never more requests than humans, and every request carries the round's start, day, symptom list, training flag and risk model; `BuildRequests` and `RequestsNameEligibleHumans` tie each request to its scheduled human |
| Eligibility.RequestsSnoc | src/covid19sim/models/run.py:25-39 | one more human adds its request at the end exactly when it is scheduled |
| Eligibility.RequestsNameEligibleHumans | src/covid19sim/models/run.py:25-39 | every request carries the snapshot (name and state) of a human of the population scheduled at the slot, so it names a scheduled human |
| Eligibility.BuildRequests | src/covid19sim/models/run.py:25-39 | one request per selected human, in order, each carrying that human's snapshot and the round's start, day, symptoms, training flag and risk model |
| Batching.ChunksPartition | src/covid19sim/models/run.py:42-48 | the batches glued back together give the request list; no batch is empty; none is longer than the size; all but the last are full; no batches exactly when no requests |
| Batching.ChunkCount | src/covid19sim/models/run.py:42-48 | c batches hold more than (c-1)*size and at most c*size requests, i.e. c is the ceiling of n/size |
| Batching.ChunkCountAtBatchSize | src/covid19sim/models/run.py:43-48 | at the hard-coded size the number of batches is (n + 24) / 25 |
| Batching.Chunks | src/covid19sim/models/run.py:42-48 | no contract of its own; `ChunksPartition` proves it has no batches exactly when there are no requests and that the batches partition the list, and `ChunkCount` and `ChunkIndex` give the rest |
| Batching.ChunkIndex | src/covid19sim/models/run.py:42-48 | request k sits at position k % 25 of batch k / 25 |
| Batching.SixtyRequestsMakeThreeBatches | src/covid19sim/models/run.py:42-48 | 60 requests make three batches of 25, 25 and 10 |
| Batching.PartitionBatches | src/covid19sim/models/run.py:42-48 | the while loop computes the contiguous partition, with all of its partition properties |
| Batching.ConcatAppend | src/covid19sim/models/run.py:52-54 | flattening distributes over concatenation of the batch list |
| Batching.Concat | src/covid19sim/models/run.py:52-54 | the flattened list is at least as long as every batch list; `ConcatLayout` and `FlattenResults` place each batch at its offset |
| Batching.ConcatLayout | src/covid19sim/models/run.py:52-54 | batch j occupies the slice starting at the total length of the batches before it |
| Batching.FlattenResults | src/covid19sim/models/run.py:52-54 | the extend loop yields the batch lists back to back, each batch's list at its offset |
| Batching.MapConcat | src/covid19sim/models/run.py:52-54 | applying a function per element commutes with flattening |
| Backends.ParallelMap | src/covid19sim/models/run.py:49-51 | the joblib call succeeds if and only if every batch call succeeds, and then returns each batch's answer in submission order |
| Backends.Dispatch | src/covid19sim/models/run.py:41-58 | on the server path the round's dispatch fails if and only if some batch call fails |
| Backends.ConcatSameShape | src/covid19sim/models/run.py:52-54 | flattening lists of equal shape gives equal lengths |
| Backends.MatchesAppend | src/covid19sim/models/run.py:52-54 | alignment of answers with requests survives concatenation |
| Backends.ConcatMatches | src/covid19sim/models/run.py:52-54 | batch-wise aligned answers flatten to answers aligned with the flattened requests |
| Backends.DispatchLength | src/covid19sim/models/run.py:41-58 | with backends that answer every request, there are as many answers as requests on either path |
| Backends.DispatchMatches | src/covid19sim/models/run.py:41-58 | with faithful backends, answer k is about the human of request k on either path |
| Backends.ShapedIndex | src/covid19sim/models/run.py:52-54 | entry k of answers shaped like the batches is entry k % 25 of batch k / 25 |
| Backends.ServerAnswersAligned | src/covid19sim/models/run.py:42-54 | on the server path, answer k is the backend's answer at the position of request k within its batch |
| Backends.BatchingIsTransparent | src/covid19sim/models/run.py:42-54 | for a backend that answers each request on its own, the flattened answers are that function applied to every request |
| Backends.BackendsInterchangeable | src/covid19sim/models/run.py:41-58 | two backends applying the same per-request function give the same answers on both paths |
| Reconcile.WriteWindow | src/covid19sim/models/run.py:67-68 | the written map holds value w[day - d] at every day d of the window and agrees with the old map everywhere else |
| Reconcile.OverwritesAt | src/covid19sim/models/run.py:67-68 | in the source's indexing, history[i] is stored at day current_day - i for every i |
| Reconcile.OverwritesUnique | src/covid19sim/models/run.py:67-68 | the old map and the window determine the written map |
| Reconcile.WriteWindowIdempotent | src/covid19sim/models/run.py:67-68 | writing the same window twice is writing it once |
| Reconcile.ReconciledMapsAgree | src/covid19sim/models/run.py:67-73 | after a merge the previous-history map equals the history map on every written day, both holding the prediction's values |
| Reconcile.ApplyPrediction | src/covid19sim/models/run.py:64-78 | an unknown name raises with nothing written, as `KeyError` unless the history is empty and H >= 1, when `IndexError` comes first; a short history for a known human raises after writing only its values to the history map; otherwise both windows, the risk level, clusters, update day and emptied message lists are set; no other human changes |
| Reconcile.ApplyIdempotent | src/covid19sim/models/run.py:64-78 | merging the same prediction twice is merging it once |
| Reconcile.ApplyCommutes | src/covid19sim/models/run.py:63-78 | predictions for different humans can be merged in either order |
| Reconcile.PresentNames | src/covid19sim/models/run.py:63-65 | the set holds exactly the names of the present results |
| Reconcile.MergeAll | src/covid19sim/models/run.py:63-78 | the fold keeps the set of humans; humans named by no present result keep their state; it runs to the end if and only if every present result names a known human with a long enough history; it can only raise the two merge errors |
| Reconcile.MergeResults | src/covid19sim/models/run.py:63-78 | the loop computes the fold, with the fold's frame and completion properties |
| Reconcile.MergeSplit | src/covid19sim/models/run.py:63-78 | merging a + b is merging a and then, unless it raised, b |
| Reconcile.SplitAfter | src/covid19sim/models/run.py:63-78 | merging the whole list is merging through result k and then, unless it raised, the rest |
| Reconcile.MergeThrough | src/covid19sim/models/run.py:63-78 | when the merge gets through present result k, that result reconciled its human from the state the earlier results left |
| Reconcile.AbsentIsNoOp | src/covid19sim/models/run.py:63-64 | an absent result changes nothing wherever it stands in the list |
| Reconcile.LastWriteWins | src/covid19sim/models/run.py:63-78 | when the merge gets through result k and no later present result names the same human, that human ends up exactly as the merge of result k leaves it, whether or not a later result raises |
| Reconcile.LastOccurrence | src/covid19sim/models/run.py:63-65 | every present name has a last present result naming it |
| Reconcile.EveryNamedHumanUpdated | src/covid19sim/models/run.py:63-78 | after a complete merge every named human has the current day as last update, empty message lists, and the clusters of the last present result naming it |
| Pipeline.RoundOutcome | src/covid19sim/models/run.py:18-78 | the set of humans never changes; an empty population raises with nothing written; a non-transformer model leaves every state unchanged; a backend failure leaves every state unchanged |
| Pipeline.IntegratedRiskPred | src/covid19sim/models/run.py:18-78 | the stage-by-stage method computes the round's outcome |
| Pipeline.OneFailingBatchAbortsRound | src/covid19sim/models/run.py:49-51 | one failing batch on the server path aborts the round with no state written |
| Pipeline.OnlyScheduledHumansChange | src/covid19sim/models/run.py:25-78 | with faithful backends, a human not scheduled at the slot keeps its state |
| Pipeline.EveryScheduledHumanUpdated | src/covid19sim/models/run.py:25-78 | with backends that only predict for the humans they are asked about, when the backend called answers every request with a prediction and the merge completes, every scheduled human has the current day as last update and an empty contact book |
| Pipeline.RoundIndependentOfBackend | src/covid19sim/models/run.py:41-58 | when both backends apply the same per-request function, a round with the inference server and the same round without it end identically |

## Left out

- The inference client, the server and the in-process engine (lines 11-15, 57-58) are foreign calls. Each becomes an opaque backend function. Transport failures of any kind become `Unavailable`.
- joblib's worker pool, `n_jobs`, `MP_BACKEND` and `MP_BATCHSIZE` (line 50) are concurrency settings. The model keeps only their result: a sequential map whose answers come back in submission order, failing when any call fails.
- The `port` argument and the engine's checkpoint path are transport and file settings and are not modelled.
- `log_path` (lines 28-30) is file-system path formatting that nothing in the round reads back.
- The `DUMP_CLUSTERS` dump (lines 81-85) is file I/O. As written, line 85 names an undefined `cconfig`, so the dump cannot run. The model is the round with `DUMP_CLUSTERS` off; with it on, the source raises `NameError` at line 85 after the merge, keeping every merge write.
- Pipeline.IntegratedRiskPred: returns the updated `hd` registry rather than the `humans` list. In the source both hold the same mutated objects, and the list itself is returned unchanged.
- Reconcile.ApplyPrediction: `update_risk_level` is reduced to a function of the freshly written history map. Its internals and any other state it reads are outside this model.
- `last_risk_update` is an integer day. Its initial value in the simulator is not part of this model.
- Risk values are floats in the source. They are opaque here, since the round never does arithmetic on them.
- The contact book is reduced to its two message lists. Nothing else of a human's state is written by the round.

=== FILE: batching.dfy ===
/**
 The batch partitioner and the result flattener of the server path: the
 request list is cut into contiguous slices of at most `BatchSize` requests,
 and the per-batch result lists are glued back together in batch order.
 */
module Batching {

  /** The batch size the server path hard-codes. */
  const BatchSize: nat := 25

  /** The lists of `xs`, one after the other. */
  function Concat<T>(xs: seq<seq<T>>): (r: seq<T>)
    ensures forall j :: 0 <= j < |xs| ==> |xs[j]| <= |r|
  {
    if |xs| == 0 then [] else xs[0] + Concat(xs[1..])
  }

  /** `s` cut into contiguous slices of `size` elements; the last slice holds
      the remainder. */
  function Chunks<T>(s: seq<T>, size: nat): (r: seq<seq<T>>)
    requires size > 0
    decreases |s|
  {
    if |s| == 0 then []
    else if |s| <= size then [s]
    else [s[..size]] + Chunks(s[size..], size)
  }

  /** The slices partition `s`: glued back together they give `s`, none is
      empty, none is longer than `size`, and all but the last are full. */
  lemma {:induction false} ChunksPartition<T>(s: seq<T>, size: nat)
    requires size > 0
    ensures Concat(Chunks(s, size)) == s
    ensures forall j :: 0 <= j < |Chunks(s, size)| ==> 0 < |Chunks(s, size)[j]| <= size
    ensures forall j :: 0 <= j < |Chunks(s, size)| - 1 ==> |Chunks(s, size)[j]| == size
    ensures |Chunks(s, size)| == 0 <==> |s| == 0
    decreases |s|
  {
    if |s| > size {
      var rest := Chunks(s[size..], size);
      ChunksPartition(s[size..], size);
      assert ([s[..size]] + rest)[1..] == rest;
      assert s == s[..size] + s[size..];
    }
  }

  /** The number of slices is the ceiling of `|s| / size`: `c` slices hold
      more than `(c - 1) * size` and at most `c * size` elements. */
  lemma {:induction false} ChunkCount<T>(s: seq<T>, size: nat)
    requires size > 0
    ensures |s| > 0 ==> (|Chunks(s, size)| - 1) * size < |s| <= |Chunks(s, size)| * size
    decreases |s|
  {
    ChunksPartition(s, size);
    if |s| > size {
      ChunkCount(s[size..], size);
      var c := |Chunks(s[size..], size)|;
      assert |Chunks(s, size)| == c + 1;
      assert (c + 1) * size == c * size + size;
      assert c * size == (c - 1) * size + size;
    }
  }

  /** With the hard-coded size, the count is `ceil(|s| / 25)`. */
  lemma {:induction false} ChunkCountAtBatchSize<T>(s: seq<T>)
    ensures |Chunks(s, BatchSize)| == (|s| + BatchSize - 1) / BatchSize
  {
    ChunkCount(s, BatchSize);
  }

  /** Concatenation distributes over `+`. */
  lemma {:induction false} ConcatAppend<T>(xs: seq<seq<T>>, ys: seq<seq<T>>)
    ensures Concat(xs + ys) == Concat(xs) + Concat(ys)
    decreases |xs|
  {
    if |xs| == 0 {
      assert xs + ys == ys;
    } else {
      assert (xs + ys)[1..] == xs[1..] + ys;
      ConcatAppend(xs[1..], ys);
    }
  }

  /** Where slice `j` starts in the concatenation. */
  function Offset<T>(xs: seq<seq<T>>, j: nat): (r: nat)
    requires j <= |xs|
  {
    |Concat(xs[..j])|
  }

  /** The concatenation lays the slices out one after the other: slice `j`
      occupies `[Offset(xs, j), Offset(xs, j) + |xs[j]|)`. */
  lemma ConcatLayout<T>(xs: seq<seq<T>>, j: nat)
    requires j < |xs|
    ensures Offset(xs, j) + |xs[j]| <= |Concat(xs)|
    ensures Concat(xs)[Offset(xs, j)..Offset(xs, j) + |xs[j]|] == xs[j]
  {
    assert xs == xs[..j] + ([xs[j]] + xs[j + 1..]);
    ConcatAppend(xs[..j], [xs[j]] + xs[j + 1..]);
    assert Concat([xs[j]] + xs[j + 1..]) == xs[j] + Concat(xs[j + 1..]);
  }

  /** Slicing at the hard-coded size puts request `k` at position `k % 25`
      of batch `k / 25`. */
  lemma {:induction false} ChunkIndex<T>(s: seq<T>, k: nat)
    requires k < |s|
    ensures k / BatchSize < |Chunks(s, BatchSize)|
    ensures k % BatchSize < |Chunks(s, BatchSize)[k / BatchSize]|
    ensures Chunks(s, BatchSize)[k / BatchSize][k % BatchSize] == s[k]
    decreases |s|
  {
    if |s| > BatchSize && k >= BatchSize {
      ChunkIndex(s[BatchSize..], k - BatchSize);
      assert (k - BatchSize) / BatchSize == k / BatchSize - 1;
      assert (k - BatchSize) % BatchSize == k % BatchSize;
    }
  }

  /** One slice off the front of `params[offset..]`. */
  lemma ChunksStep<T>(params: seq<T>, offset: nat, size: nat)
    requires size > 0 && offset < |params|
    ensures var stop := if offset + size < |params| then offset + size else |params|;
            Chunks(params[offset..], size) == [params[offset..stop]] + Chunks(params[stop..], size)
  {
    var rest := params[offset..];
    if |rest| > size {
      assert rest[..size] == params[offset..offset + size];
      assert rest[size..] == params[offset + size..];
    } else {
      assert rest == params[offset..|params|];
      assert params[|params|..] == [];
    }
  }

  /** The `while` loop of the source: slice `[offset, min(offset + size, n))`,
      then advance the offset by `size`. */
  method PartitionBatches<T>(params: seq<T>, size: nat) returns (batched: seq<seq<T>>)
    requires size > 0
    ensures batched == Chunks(params, size)
    ensures Concat(batched) == params
    ensures forall j :: 0 <= j < |batched| ==> 0 < |batched[j]| <= size
    ensures forall j :: 0 <= j < |batched| - 1 ==> |batched[j]| == size
    ensures |batched| == 0 <==> |params| == 0
  {
    ChunksPartition(params, size);
    var offset := 0;
    batched := [];
    ghost var todo := Chunks(params, size);
    while offset < |params|
      invariant offset < |params| ==> todo == Chunks(params[offset..], size)
      invariant offset >= |params| ==> todo == []
      invariant batched + todo == Chunks(params, size)
      decreases |params| - offset
    {
      var stop := if offset + size < |params| then offset + size else |params|;
      ChunksStep(params, offset, size);
      assert todo == [params[offset..stop]] + Chunks(params[stop..], size);
      batched := batched + [params[offset..stop]];
      todo := todo[1..];
      offset := offset + size;
    }
  }

  /** The `extend` loop of the source: the per-batch lists, back to back. */
  method FlattenResults<T>(batched: seq<seq<T>>) returns (results: seq<T>)
    ensures results == Concat(batched)
    ensures forall j :: 0 <= j < |batched| ==>
              Offset(batched, j) + |batched[j]| <= |results|
              && results[Offset(batched, j)..Offset(batched, j) + |batched[j]|] == batched[j]
  {
    results := [];
    for j := 0 to |batched|
      invariant results == Concat(batched[..j])
    {
      assert batched[..j + 1] == batched[..j] + [batched[j]];
      ConcatAppend(batched[..j], [batched[j]]);
      assert Concat([batched[j]]) == batched[j];
      results := results + batched[j];
    }
    assert batched[..|batched|] == batched;
    forall j | 0 <= j < |batched|
      ensures Offset(batched, j) + |batched[j]| <= |results|
      ensures results[Offset(batched, j)..Offset(batched, j) + |batched[j]|] == batched[j]
    {
      ConcatLayout(batched, j);
    }
  }

  /** `f` applied to every element. */
  function MapSeq<A, B>(s: seq<A>, f: A -> B): (r: seq<B>)
    ensures |r| == |s|
    ensures forall k :: 0 <= k < |s| ==> r[k] == f(s[k])
  {
    seq(|s|, k requires 0 <= k < |s| => f(s[k]))
  }

  /** Mapping commutes with concatenation. */
  lemma {:induction false} MapConcat<A, B>(xs: seq<seq<A>>, f: A -> B)
    ensures MapSeq(Concat(xs), f) == Concat(MapSeq(xs, s => MapSeq(s, f)))
    decreases |xs|
  {
    var ys := MapSeq(xs, s => MapSeq(s, f));
    if |xs| > 0 {
      MapConcat(xs[1..], f);
      assert MapSeq(xs[1..], s => MapSeq(s, f)) == ys[1..];
      assert MapSeq(xs[0] + Concat(xs[1..]), f) == MapSeq(xs[0], f) + MapSeq(Concat(xs[1..]), f);
    }
  }

  /** 60 requests make batches of 25, 25 and 10. */
  lemma SixtyRequestsMakeThreeBatches<T>(s: seq<T>)
    requires |s| == 60
    ensures |Chunks(s, BatchSize)| == 3
    ensures |Chunks(s, BatchSize)[0]| == 25 && |Chunks(s, BatchSize)[1]| == 25 && |Chunks(s, BatchSize)[2]| == 10
  {
    assert Chunks(s, BatchSize) == [s[..25]] + Chunks(s[25..], BatchSize);
    assert Chunks(s[25..], BatchSize) == [s[25..][..25]] + Chunks(s[25..][25..], BatchSize);
    assert Chunks(s[25..][25..], BatchSize) == [s[25..][25..]];
  }
}

=== FILE: dispatch.dfy ===
/**
 Dispatch of the request list to a prediction backend.

 A backend (the inference server client, or the in-process engine) is a
 function from a list of requests to either the list of its answers, one
 optional prediction per request, or a failure. On the server path the
 requests go out in batches through joblib, which returns the per-batch
 answers in submission order and raises as soon as one call raises; this is
 modelled as a sequential map. The in-process path sends the whole list at
 once.
 */
module Backends {
  import opened Records
  import opened Batching

  /** What a backend call gives back: its value, or the exception it raised. */
  datatype Reply<X> = Answered(value: X) | Unavailable

  /** One optional prediction per request. */
  type Answers<R, C> = seq<Option<Prediction<R, C>>>

  type Backend<!S, !T, !Y, R, C> = seq<Request<S, T, Y>> -> Reply<Answers<R, C>>

  /** joblib's `Parallel` over `xs`: every call's value in submission order,
      or a failure when any call fails. */
  function ParallelMap<A, B>(xs: seq<A>, f: A -> Reply<B>): (r: Reply<seq<B>>)
    ensures r.Answered? <==> forall j :: 0 <= j < |xs| ==> f(xs[j]).Answered?
    ensures r.Answered? ==> |r.value| == |xs| && forall j :: 0 <= j < |xs| ==> r.value[j] == f(xs[j]).value
  {
    if |xs| == 0 then Answered([])
    else match f(xs[0])
      case Unavailable => Unavailable
      case Answered(y) =>
        match ParallelMap(xs[1..], f)
        case Unavailable => Unavailable
        case Answered(ys) => Answered([y] + ys)
  }

  /** The answers of a round: batched through the server, or all at once
      through the in-process engine. */
  function Dispatch<S, T, Y, R, C>(params: seq<Request<S, T, Y>>, useServer: bool,
                                   remote: Backend<S, T, Y, R, C>, local: Backend<S, T, Y, R, C>): (r: Reply<Answers<R, C>>)
    ensures useServer ==>
              (r.Unavailable? <==> exists j :: 0 <= j < |Chunks(params, BatchSize)| && remote(Chunks(params, BatchSize)[j]).Unavailable?)
  {
    if useServer then
      match ParallelMap(Chunks(params, BatchSize), remote)
      case Unavailable => Unavailable
      case Answered(perBatch) => Answered(Concat(perBatch))
    else local(params)
  }

  /** Two lists of lists whose members have pairwise equal lengths. */
  ghost predicate SameShape<A, B>(xs: seq<seq<A>>, ys: seq<seq<B>>) {
    |xs| == |ys| && forall j :: 0 <= j < |xs| ==> |xs[j]| == |ys[j]|
  }

  /** A backend that answers every request: one entry per request. */
  ghost predicate LengthPreserving<S(!new), T(!new), Y(!new), R, C>(b: Backend<S, T, Y, R, C>) {
    forall batch :: b(batch).Answered? ==> |b(batch).value| == |batch|
  }

  /** Answers aligned with the requests: as many, and every present
      prediction names the human of the request at the same position. */
  ghost predicate Matches<S, T, Y, R, C>(reqs: seq<Request<S, T, Y>>, answers: Answers<R, C>) {
    && |answers| == |reqs|
    && forall k :: 0 <= k < |answers| && answers[k].Some? ==> answers[k].value.name == reqs[k].human.name
  }

  /** A backend that only ever predicts for the humans it was asked about. */
  ghost predicate Faithful<S(!new), T(!new), Y(!new), R, C>(b: Backend<S, T, Y, R, C>) {
    forall batch :: b(batch).Answered? ==> Matches(batch, b(batch).value)
  }

  /** A backend that treats every request on its own with the same function. */
  ghost predicate Pointwise<S(!new), T(!new), Y(!new), R, C>(b: Backend<S, T, Y, R, C>, g: Request<S, T, Y> -> Option<Prediction<R, C>>) {
    forall batch :: b(batch) == Answered(MapSeq(batch, g))
  }

  lemma {:induction false} ConcatSameShape<A, B>(xs: seq<seq<A>>, ys: seq<seq<B>>)
    requires SameShape(xs, ys)
    ensures |Concat(xs)| == |Concat(ys)|
    decreases |xs|
  {
    if |xs| > 0 {
      ConcatSameShape(xs[1..], ys[1..]);
    }
  }

  lemma MatchesAppend<S, T, Y, R, C>(a: seq<Request<S, T, Y>>, b: seq<Request<S, T, Y>>, c: Answers<R, C>, d: Answers<R, C>)
    requires Matches(a, c) && Matches(b, d)
    ensures Matches(a + b, c + d)
  {
    forall k | 0 <= k < |c + d| && (c + d)[k].Some?
      ensures (c + d)[k].value.name == (a + b)[k].human.name
    {
      if k >= |c| {
        assert (c + d)[k] == d[k - |c|];
        assert (a + b)[k] == b[k - |a|];
      }
    }
  }

  lemma {:induction false} ConcatMatches<S, T, Y, R, C>(xs: seq<seq<Request<S, T, Y>>>, ys: seq<Answers<R, C>>)
    requires |xs| == |ys|
    requires forall j :: 0 <= j < |xs| ==> Matches(xs[j], ys[j])
    ensures Matches(Concat(xs), Concat(ys))
    decreases |xs|
  {
    if |xs| > 0 {
      ConcatMatches(xs[1..], ys[1..]);
      MatchesAppend(xs[0], Concat(xs[1..]), ys[0], Concat(ys[1..]));
    }
  }

  /** With backends that answer every request, the flattened answers are as
      many as the requests, on either path. */
  lemma DispatchLength<S(!new), T(!new), Y(!new), R, C>(params: seq<Request<S, T, Y>>, useServer: bool,
                                                     remote: Backend<S, T, Y, R, C>, local: Backend<S, T, Y, R, C>)
    requires LengthPreserving(remote) && LengthPreserving(local)
    requires Dispatch(params, useServer, remote, local).Answered?
    ensures |Dispatch(params, useServer, remote, local).value| == |params|
  {
    if useServer {
      var chunks := Chunks(params, BatchSize);
      ChunksPartition(params, BatchSize);
      var perBatch := ParallelMap(chunks, remote).value;
      ConcatSameShape(chunks, perBatch);
    }
  }

  /** With faithful backends, answer `k` is about the human of request `k`,
      on either path. */
  lemma DispatchMatches<S(!new), T(!new), Y(!new), R, C>(params: seq<Request<S, T, Y>>, useServer: bool,
                                                      remote: Backend<S, T, Y, R, C>, local: Backend<S, T, Y, R, C>)
    requires Faithful(remote) && Faithful(local)
    requires Dispatch(params, useServer, remote, local).Answered?
    ensures Matches(params, Dispatch(params, useServer, remote, local).value)
  {
    if useServer {
      var chunks := Chunks(params, BatchSize);
      ChunksPartition(params, BatchSize);
      var perBatch := ParallelMap(chunks, remote).value;
      ConcatMatches(chunks, perBatch);
    }
  }

  /** Indexing into answers shaped like the batches of `s`: entry `k` of the
      flattened answers is entry `k % 25` of batch `k / 25`'s answers. */
  lemma {:induction false} ShapedIndex<T, U>(s: seq<T>, ys: seq<seq<U>>, k: nat)
    requires SameShape(Chunks(s, BatchSize), ys)
    requires k < |s|
    ensures k / BatchSize < |ys| && k % BatchSize < |ys[k / BatchSize]|
    ensures k < |Concat(ys)| && Concat(ys)[k] == ys[k / BatchSize][k % BatchSize]
    decreases |s|
  {
    ChunksPartition(s, BatchSize);
    assert Concat(ys) == ys[0] + Concat(ys[1..]);
    if |s| > BatchSize {
      var rest := Chunks(s[BatchSize..], BatchSize);
      assert Chunks(s, BatchSize)[1..] == rest;
      if k >= BatchSize {
        ShapedIndex(s[BatchSize..], ys[1..], k - BatchSize);
        assert (k - BatchSize) / BatchSize == k / BatchSize - 1;
        assert (k - BatchSize) % BatchSize == k % BatchSize;
      }
    }
  }

  /** On the server path, with a backend that answers every request, answer
      `k` is the answer to request `k`: both sit at position `k % 25` of batch
      `k / 25`. */
  lemma ServerAnswersAligned<S(!new), T(!new), Y(!new), R, C>(params: seq<Request<S, T, Y>>,
                                                           remote: Backend<S, T, Y, R, C>, local: Backend<S, T, Y, R, C>, k: nat)
    requires LengthPreserving(remote)
    requires Dispatch(params, true, remote, local).Answered?
    requires k < |params|
    ensures k / BatchSize < |Chunks(params, BatchSize)|
    ensures var batch := Chunks(params, BatchSize)[k / BatchSize];
            && k % BatchSize < |batch|
            && batch[k % BatchSize] == params[k]
            && k < |Dispatch(params, true, remote, local).value|
            && Dispatch(params, true, remote, local).value[k] == remote(batch).value[k % BatchSize]
  {
    var chunks := Chunks(params, BatchSize);
    var perBatch := ParallelMap(chunks, remote).value;
    ChunkIndex(params, k);
    assert SameShape(chunks, perBatch);
    ShapedIndex(params, perBatch, k);
  }

  /** Batching is invisible to a backend that treats every request on its
      own: the flattened answers are that function applied to each request. */
  lemma BatchingIsTransparent<S(!new), T(!new), Y(!new), R, C>(params: seq<Request<S, T, Y>>,
                                                            remote: Backend<S, T, Y, R, C>, local: Backend<S, T, Y, R, C>,
                                                            g: Request<S, T, Y> -> Option<Prediction<R, C>>)
    requires Pointwise(remote, g)
    ensures Dispatch(params, true, remote, local) == Answered(MapSeq(params, g))
  {
    var chunks := Chunks(params, BatchSize);
    ChunksPartition(params, BatchSize);
    var perBatch := ParallelMap(chunks, remote).value;
    assert perBatch == MapSeq(chunks, c => MapSeq(c, g));
    MapConcat(chunks, g);
  }

  /** The two backends are interchangeable: when both apply the same
      per-request function, the server and in-process paths give the same
      answers. */
  lemma BackendsInterchangeable<S(!new), T(!new), Y(!new), R, C>(params: seq<Request<S, T, Y>>,
                                                              remote: Backend<S, T, Y, R, C>, local: Backend<S, T, Y, R, C>,
                                                              g: Request<S, T, Y> -> Option<Prediction<R, C>>)
    requires Pointwise(remote, g) && Pointwise(local, g)
    ensures Dispatch(params, true, remote, local) == Dispatch(params, false, remote, local)
  {
    BatchingIsTransparent(params, remote, local, g);
  }
}

=== FILE: eligibility.dfy ===
/**
 The eligibility filter: one inference request per human whose own schedule
 contains the current time slot, in population order.
 */
module Eligibility {
  import opened Records

  /** A human is asked about in this round when its schedule holds the slot. */
  predicate Eligible<S>(h: Human<S>, slot: int) {
    slot in h.timeSlots
  }

  /** The eligible humans, in population order. */
  function Select<S>(humans: seq<Human<S>>, slot: int): (r: seq<Human<S>>)
    ensures |r| <= |humans|
    decreases |humans|
  {
    if |humans| == 0 then []
    else
      var last := humans[|humans| - 1];
      Select(humans[..|humans| - 1], slot) + (if Eligible(last, slot) then [last] else [])
  }

  /** Exactly the eligible humans survive the filter, each with its
      multiplicity in the population. */
  lemma {:induction false} SelectCounts<S>(humans: seq<Human<S>>, slot: int)
    ensures forall h :: h in humans ==>
              multiset(Select(humans, slot))[h] == if Eligible(h, slot) then multiset(humans)[h] else 0
    ensures forall h :: h in Select(humans, slot) ==> h in humans && Eligible(h, slot)
    decreases |humans|
  {
    if |humans| > 0 {
      var front := humans[..|humans| - 1];
      var last := humans[|humans| - 1];
      assert humans == front + [last];
      SelectCounts(front, slot);
      assert multiset(humans) == multiset(front) + multiset{last};
    }
  }

  /** A human is selected if and only if it belongs to the population and is
      scheduled at the slot. */
  lemma SelectMembership<S>(humans: seq<Human<S>>, slot: int, h: Human<S>)
    ensures h in Select(humans, slot) <==> h in humans && Eligible(h, slot)
  {
    SelectCounts(humans, slot);
    if h in humans && Eligible(h, slot) {
      assert multiset(humans)[h] > 0;
      assert multiset(Select(humans, slot))[h] > 0;
    }
  }

  /** Filtering distributes over concatenation: the filter never reorders. */
  lemma {:induction false} SelectDistributes<S>(a: seq<Human<S>>, b: seq<Human<S>>, slot: int)
    ensures Select(a + b, slot) == Select(a, slot) + Select(b, slot)
    decreases |b|
  {
    if |b| == 0 {
      assert a + b == a;
    } else {
      var front := b[..|b| - 1];
      assert (a + b)[..|a + b| - 1] == a + front;
      assert (a + b)[|a + b| - 1] == b[|b| - 1];
      SelectDistributes(a, front, slot);
    }
  }

  /** The request dictionary built for one human. */
  function MakeRequest<S, T, Y>(h: Human<S>, start: T, day: int, symptoms: Y, cfg: Config): (r: Request<S, T, Y>) {
    Request(start, day, symptoms, Snapshot(h.name, h.state), cfg.collectTrainingData, cfg.riskModel)
  }

  /** The full request list of a round. */
  function Requests<S, T, Y>(humans: seq<Human<S>>, slot: int, start: T, day: int, symptoms: Y, cfg: Config): (r: seq<Request<S, T, Y>>)
    ensures |r| <= |humans|
    ensures forall k :: 0 <= k < |r| ==>
              && r[k].start == start && r[k].currentDay == day && r[k].allPossibleSymptoms == symptoms
              && r[k].collectTrainingData == cfg.collectTrainingData && r[k].riskModel == cfg.riskModel
  {
    var selected := Select(humans, slot);
    seq(|selected|, k requires 0 <= k < |selected| => MakeRequest(selected[k], start, day, symptoms, cfg))
  }

  /** The names of the humans scheduled at `slot`. */
  function EligibleNames<S>(humans: seq<Human<S>>, slot: int): (r: set<string>) {
    set k | 0 <= k < |humans| && Eligible(humans[k], slot) :: humans[k].name
  }

  /** `q` is the snapshot of a human of the population scheduled at `slot`. */
  ghost predicate ScheduledSnapshot<S>(humans: seq<Human<S>>, slot: int, q: Snapshot<S>) {
    exists j :: 0 <= j < |humans| && Eligible(humans[j], slot) && q == Snapshot(humans[j].name, humans[j].state)
  }

  /** Every request carries the snapshot of a scheduled human of the
      population, and so names one. */
  lemma RequestsNameEligibleHumans<S, T, Y>(humans: seq<Human<S>>, slot: int, start: T, day: int, symptoms: Y, cfg: Config)
    ensures forall k :: 0 <= k < |Requests(humans, slot, start, day, symptoms, cfg)| ==>
              ScheduledSnapshot(humans, slot, Requests(humans, slot, start, day, symptoms, cfg)[k].human)
    ensures forall k :: 0 <= k < |Requests(humans, slot, start, day, symptoms, cfg)| ==>
              Requests(humans, slot, start, day, symptoms, cfg)[k].human.name in EligibleNames(humans, slot)
  {
    var selected := Select(humans, slot);
    var params := Requests(humans, slot, start, day, symptoms, cfg);
    forall k | 0 <= k < |params|
      ensures ScheduledSnapshot(humans, slot, params[k].human)
      ensures params[k].human.name in EligibleNames(humans, slot)
    {
      SelectMembership(humans, slot, selected[k]);
      var j :| 0 <= j < |humans| && humans[j] == selected[k];
      assert Eligible(humans[j], slot);
      assert params[k].human == Snapshot(humans[j].name, humans[j].state);
    }
  }

  /** Extending the population by one human extends the request list by that
      human's request exactly when it is scheduled. */
  lemma RequestsSnoc<S, T, Y>(humans: seq<Human<S>>, i: nat, slot: int, start: T, day: int, symptoms: Y, cfg: Config)
    requires i < |humans|
    ensures Requests(humans[..i + 1], slot, start, day, symptoms, cfg)
            == Requests(humans[..i], slot, start, day, symptoms, cfg)
               + (if Eligible(humans[i], slot) then [MakeRequest(humans[i], start, day, symptoms, cfg)] else [])
  {
    assert humans[..i + 1][..i] == humans[..i];
  }

  /** The loop of the source: skip unscheduled humans, append a request for
      every other one. */
  method BuildRequests<S, T, Y>(humans: seq<Human<S>>, slot: int, start: T, day: int, symptoms: Y, cfg: Config)
    returns (params: seq<Request<S, T, Y>>)
    ensures params == Requests(humans, slot, start, day, symptoms, cfg)
    ensures |params| == |Select(humans, slot)|
    ensures forall k :: 0 <= k < |params| ==>
              var h := Select(humans, slot)[k];
              && params[k].human == Snapshot(h.name, h.state)
              && params[k].start == start
              && params[k].currentDay == day
              && params[k].allPossibleSymptoms == symptoms
              && params[k].collectTrainingData == cfg.collectTrainingData
              && params[k].riskModel == cfg.riskModel
  {
    params := [];
    for i := 0 to |humans|
      invariant params == Requests(humans[..i], slot, start, day, symptoms, cfg)
    {
      var human := humans[i];
      RequestsSnoc(humans, i, slot, start, day, symptoms, cfg);
      if slot !in human.timeSlots {
        continue;
      }
      params := params + [MakeRequest(human, start, day, symptoms, cfg)];
    }
    assert humans[..|humans|] == humans;
  }
}

=== FILE: reconcile.dfy ===
/**
 The state reconciler: every present prediction is folded, in list order,
 into the state of the human it names.
 */
module Reconcile {
  import opened Records

  /** `d` is one of the `n` most recent days up to `day`. */
  predicate InWindow(d: int, day: int, n: nat) {
    day - n < d <= day
  }

  /** `m'` is `m` with `w[day - d]` stored at every day `d` of the window
      of `|w|` days ending at `day` (so `w[i]` sits at `day - i`), and every
      other day left as it was. */
  ghost predicate Overwrites<R>(m: map<int, R>, m': map<int, R>, day: int, w: seq<R>) {
    && (forall d :: d in m' <==> d in m || InWindow(d, day, |w|))
    && (forall d :: d in m' ==> m'[d] == if InWindow(d, day, |w|) then w[day - d] else m[d])
  }

  /** The write loop of the source, for `i` from 0 up to `|w| - 1`. */
  function WriteWindow<R>(m: map<int, R>, day: int, w: seq<R>): (r: map<int, R>)
    ensures Overwrites(m, r, day, w)
    decreases |w|
  {
    if |w| == 0 then m
    else WriteWindow(m, day, w[..|w| - 1])[day - (|w| - 1) := w[|w| - 1]]
  }

  /** The window in the source's own indexing: `w[i]` is stored at `day - i`. */
  lemma OverwritesAt<R>(m: map<int, R>, m': map<int, R>, day: int, w: seq<R>)
    requires Overwrites(m, m', day, w)
    ensures forall i :: 0 <= i < |w| ==> day - i in m' && m'[day - i] == w[i]
  {
    forall i | 0 <= i < |w|
      ensures day - i in m' && m'[day - i] == w[i]
    {
      assert InWindow(day - i, day, |w|);
    }
  }

  /** A window write is determined by the map before and the values. */
  lemma OverwritesUnique<R>(m: map<int, R>, a: map<int, R>, b: map<int, R>, day: int, w: seq<R>)
    requires Overwrites(m, a, day, w) && Overwrites(m, b, day, w)
    ensures a == b
  {
    forall d
      ensures d in a <==> d in b
    {
    }
    assert a.Keys == b.Keys;
    forall d | d in a
      ensures a[d] == b[d]
    {
    }
  }

  /** Writing the same window twice is writing it once. */
  lemma WriteWindowIdempotent<R>(m: map<int, R>, day: int, w: seq<R>)
    ensures WriteWindow(WriteWindow(m, day, w), day, w) == WriteWindow(m, day, w)
  {
    var once := WriteWindow(m, day, w);
    var twice := WriteWindow(once, day, w);
    assert Overwrites(m, twice, day, w);
    OverwritesUnique(m, once, twice, day, w);
  }

  /** What a present prediction does to its human's state: both maps hold
      the prediction's window, the risk level is recomputed from the new
      history map, the clusters and the update day are replaced, and both
      message lists are emptied. */
  ghost predicate Reconciled<R, C, L, M>(before: AgentState<R, C, L, M>, after: AgentState<R, C, L, M>,
                                         p: Prediction<R, C>, day: int, h: nat, levelOf: map<int, R> -> L)
  {
    && h <= |p.riskHistory|
    && Overwrites(before.riskHistoryMap, after.riskHistoryMap, day, p.riskHistory[..h])
    && Overwrites(before.prevRiskHistoryMap, after.prevRiskHistoryMap, day, p.riskHistory[..h])
    && after.riskLevel == levelOf(after.riskHistoryMap)
    && after.clusters == p.clusters
    && after.lastRiskUpdate == day
    && after.contactBook == ContactBook([], [])
  }

  /** After a reconciliation the two history maps agree on every written day. */
  lemma ReconciledMapsAgree<R, C, L, M>(before: AgentState<R, C, L, M>, after: AgentState<R, C, L, M>,
                                        p: Prediction<R, C>, day: int, h: nat, levelOf: map<int, R> -> L)
    requires Reconciled(before, after, p, day, h, levelOf)
    ensures forall i :: 0 <= i < h ==>
              && day - i in after.riskHistoryMap && day - i in after.prevRiskHistoryMap
              && after.prevRiskHistoryMap[day - i] == after.riskHistoryMap[day - i] == p.riskHistory[i]
  {
    var w := p.riskHistory[..h];
    OverwritesAt(before.riskHistoryMap, after.riskHistoryMap, day, w);
    OverwritesAt(before.prevRiskHistoryMap, after.prevRiskHistoryMap, day, w);
    forall i | 0 <= i < h
      ensures after.prevRiskHistoryMap[day - i] == after.riskHistoryMap[day - i] == p.riskHistory[i]
    {
      assert w[i] == p.riskHistory[i];
    }
  }

  /** One iteration of the merge loop for a present prediction, with `h`
      the history length. Each write evaluates `risk_history[i]` before
      `hd[name]`, so the first write raises on an empty list whether or not
      the name is known; otherwise `hd[name]` raises on an unknown name
      before any write, and `risk_history[i]` raises on a short list once
      the values it has were written to the history map. */
  function ApplyPrediction<R, C, L, M>(hd: Registry<R, C, L, M>, p: Prediction<R, C>, day: int, h: nat,
                                       levelOf: map<int, R> -> L): (r: Outcome<R, C, L, M>)
    ensures r.registry.Keys == hd.Keys
    ensures forall n :: n in hd && n != p.name ==> r.registry[n] == hd[n]
    ensures p.name !in hd ==> r.Aborted? && r.registry == hd
    ensures p.name !in hd && (h == 0 || |p.riskHistory| > 0) ==> r.error == UnknownAgent(p.name)
    ensures |p.riskHistory| < h && (p.name in hd || |p.riskHistory| == 0) ==> r.Aborted? && r.error == ShortHistory(p.name)
    ensures p.name in hd && |p.riskHistory| < h ==>
              && r.Aborted? && r.error == ShortHistory(p.name)
              && Overwrites(hd[p.name].riskHistoryMap, r.registry[p.name].riskHistoryMap, day, p.riskHistory)
              && r.registry[p.name] == hd[p.name].(riskHistoryMap := r.registry[p.name].riskHistoryMap)
    ensures p.name in hd && h <= |p.riskHistory| ==>
              r.Completed? && Reconciled(hd[p.name], r.registry[p.name], p, day, h, levelOf)
  {
    if p.name !in hd then
      if 0 < h && |p.riskHistory| == 0 then Aborted(ShortHistory(p.name), hd) else Aborted(UnknownAgent(p.name), hd)
    else
      var st := hd[p.name];
      if |p.riskHistory| < h then
        Aborted(ShortHistory(p.name), hd[p.name := st.(riskHistoryMap := WriteWindow(st.riskHistoryMap, day, p.riskHistory))])
      else
        var w := p.riskHistory[..h];
        var history := WriteWindow(st.riskHistoryMap, day, w);
        Completed(hd[p.name := AgentState(history, WriteWindow(st.prevRiskHistoryMap, day, w), levelOf(history),
                                          p.clusters, day, ContactBook([], []))])
  }

  /** Applying the same prediction twice is applying it once. */
  lemma ApplyIdempotent<R, C, L, M>(hd: Registry<R, C, L, M>, p: Prediction<R, C>, day: int, h: nat, levelOf: map<int, R> -> L)
    requires ApplyPrediction(hd, p, day, h, levelOf).Completed?
    ensures ApplyPrediction(ApplyPrediction(hd, p, day, h, levelOf).registry, p, day, h, levelOf)
            == ApplyPrediction(hd, p, day, h, levelOf)
  {
    var st := hd[p.name];
    var w := p.riskHistory[..h];
    WriteWindowIdempotent(st.riskHistoryMap, day, w);
    WriteWindowIdempotent(st.prevRiskHistoryMap, day, w);
  }

  /** Predictions for different humans commute: each human's state is its own. */
  lemma ApplyCommutes<R, C, L, M>(hd: Registry<R, C, L, M>, p: Prediction<R, C>, q: Prediction<R, C>,
                                  day: int, h: nat, levelOf: map<int, R> -> L)
    requires p.name != q.name
    requires ApplyPrediction(hd, p, day, h, levelOf).Completed? && ApplyPrediction(hd, q, day, h, levelOf).Completed?
    ensures ApplyPrediction(ApplyPrediction(hd, p, day, h, levelOf).registry, q, day, h, levelOf)
            == ApplyPrediction(ApplyPrediction(hd, q, day, h, levelOf).registry, p, day, h, levelOf)
  {
  }

  /** The names of the present predictions. */
  function PresentNames<R, C>(results: seq<Option<Prediction<R, C>>>): (names: set<string>)
    ensures forall k :: 0 <= k < |results| && results[k].Some? ==> results[k].value.name in names
    ensures forall n :: n in names ==> exists k :: 0 <= k < |results| && results[k].Some? && results[k].value.name == n
    decreases |results|
  {
    if |results| == 0 then {}
    else (if results[0].Some? then {results[0].value.name} else {}) + PresentNames(results[1..])
  }

  /** Every present prediction names a known human and carries at least `h`
      values: exactly the condition under which the merge runs to the end. */
  ghost predicate WellFormed<R, C>(results: seq<Option<Prediction<R, C>>>, names: set<string>, h: nat) {
    forall k :: 0 <= k < |results| && results[k].Some? ==>
      results[k].value.name in names && h <= |results[k].value.riskHistory|
  }

  /** The merge loop: a left fold over the results, skipping absent ones and
      stopping at the first exception with the writes made so far. */
  function MergeAll<R, C, L, M>(hd: Registry<R, C, L, M>, results: seq<Option<Prediction<R, C>>>, day: int, h: nat,
                                levelOf: map<int, R> -> L): (r: Outcome<R, C, L, M>)
    ensures r.registry.Keys == hd.Keys
    ensures forall n :: n in hd && n !in PresentNames(results) ==> r.registry[n] == hd[n]
    ensures r.Completed? <==> WellFormed(results, hd.Keys, h)
    ensures r.Aborted? ==> r.error.UnknownAgent? || r.error.ShortHistory?
    decreases |results|
  {
    if |results| == 0 then Completed(hd)
    else match results[0]
      case None => MergeAll(hd, results[1..], day, h, levelOf)
      case Some(p) =>
        match ApplyPrediction(hd, p, day, h, levelOf)
        case Aborted(e, partial) => Aborted(e, partial)
        case Completed(next) => MergeAll(next, results[1..], day, h, levelOf)
  }

  /** The `for result in results` loop of the source, one result at a time. */
  method MergeResults<R, C, L, M>(hd: Registry<R, C, L, M>, results: seq<Option<Prediction<R, C>>>, day: int, h: nat,
                                  levelOf: map<int, R> -> L) returns (outcome: Outcome<R, C, L, M>)
    ensures outcome == MergeAll(hd, results, day, h, levelOf)
    ensures outcome.registry.Keys == hd.Keys
    ensures forall n :: n in hd && n !in PresentNames(results) ==> outcome.registry[n] == hd[n]
    ensures outcome.Completed? <==> WellFormed(results, hd.Keys, h)
  {
    var current := hd;
    for i := 0 to |results|
      invariant MergeAll(hd, results, day, h, levelOf) == MergeAll(current, results[i..], day, h, levelOf)
    {
      assert results[i..][0] == results[i];
      assert results[i..][1..] == results[i + 1..];
      match results[i]
      case None =>
      case Some(p) =>
        var step := ApplyPrediction(current, p, day, h, levelOf);
        if step.Aborted? {
          return step;
        }
        current := step.registry;
    }
    outcome := Completed(current);
  }

  /** The rest of the fold from a given point: nothing after an exception. */
  function Resume<R, C, L, M>(o: Outcome<R, C, L, M>, rest: seq<Option<Prediction<R, C>>>, day: int, h: nat,
                              levelOf: map<int, R> -> L): (r: Outcome<R, C, L, M>)
  {
    if o.Aborted? then o else MergeAll(o.registry, rest, day, h, levelOf)
  }

  /** The merge is a left fold: merging `a + b` is merging `a`, then `b`. */
  lemma {:induction false} MergeSplit<R, C, L, M>(hd: Registry<R, C, L, M>, a: seq<Option<Prediction<R, C>>>,
                                                 b: seq<Option<Prediction<R, C>>>, day: int, h: nat, levelOf: map<int, R> -> L)
    ensures MergeAll(hd, a + b, day, h, levelOf) == Resume(MergeAll(hd, a, day, h, levelOf), b, day, h, levelOf)
    decreases |a|
  {
    if |a| == 0 {
      assert a + b == b;
    } else {
      assert (a + b)[0] == a[0];
      assert (a + b)[1..] == a[1..] + b;
      match a[0]
      case None =>
        MergeSplit(hd, a[1..], b, day, h, levelOf);
      case Some(p) =>
        match ApplyPrediction(hd, p, day, h, levelOf)
        case Aborted(_, _) =>
        case Completed(next) =>
          MergeSplit(next, a[1..], b, day, h, levelOf);
    }
  }

  /** An absent result is a no-op wherever it stands in the list. */
  lemma AbsentIsNoOp<R, C, L, M>(hd: Registry<R, C, L, M>, a: seq<Option<Prediction<R, C>>>,
                                 b: seq<Option<Prediction<R, C>>>, day: int, h: nat, levelOf: map<int, R> -> L)
    ensures MergeAll(hd, a + [None] + b, day, h, levelOf) == MergeAll(hd, a + b, day, h, levelOf)
  {
    MergeSplit(hd, a + [None], b, day, h, levelOf);
    MergeSplit(hd, a, [None], day, h, levelOf);
    MergeSplit(hd, a, b, day, h, levelOf);
    var o := MergeAll(hd, a, day, h, levelOf);
    if o.Completed? {
      var absent: seq<Option<Prediction<R, C>>> := [None];
      assert absent[1..] == [];
      assert MergeAll(o.registry, [None], day, h, levelOf) == o;
    }
  }

  /** Merging up to and including a present prediction `k`: when that prefix
      runs to the end, prediction `k` reconciled its human from the state the
      earlier ones left. */
  lemma {:induction false} MergeThrough<R, C, L, M>(hd: Registry<R, C, L, M>, results: seq<Option<Prediction<R, C>>>, k: nat,
                                                   day: int, h: nat, levelOf: map<int, R> -> L)
    requires k < |results| && results[k].Some?
    requires MergeAll(hd, results[..k + 1], day, h, levelOf).Completed?
    ensures var p := results[k].value;
            var before := MergeAll(hd, results[..k], day, h, levelOf).registry;
            var upto := MergeAll(hd, results[..k + 1], day, h, levelOf).registry;
            && p.name in before && p.name in upto
            && Reconciled(before[p.name], upto[p.name], p, day, h, levelOf)
  {
    var p := results[k].value;
    assert results[..k + 1] == results[..k] + [results[k]];
    MergeSplit(hd, results[..k], [results[k]], day, h, levelOf);
    var mid := MergeAll(hd, results[..k], day, h, levelOf);
    assert mid.Completed?;
    var step := ApplyPrediction(mid.registry, p, day, h, levelOf);
    var single := [results[k]];
    assert single[1..] == [];
    assert MergeAll(mid.registry, single, day, h, levelOf) == MergeAll(step.registry, [], day, h, levelOf);
  }

  /** Cutting the results after position `k`. */
  lemma SplitAfter<R, C, L, M>(hd: Registry<R, C, L, M>, results: seq<Option<Prediction<R, C>>>, k: nat,
                               day: int, h: nat, levelOf: map<int, R> -> L)
    requires k < |results|
    ensures MergeAll(hd, results, day, h, levelOf)
            == Resume(MergeAll(hd, results[..k + 1], day, h, levelOf), results[k + 1..], day, h, levelOf)
  {
    assert results == results[..k + 1] + results[k + 1..];
    MergeSplit(hd, results[..k + 1], results[k + 1..], day, h, levelOf);
  }

  /** Last write wins: when no later present prediction names the same human,
      that human ends up reconciled with prediction `k` from the state it had
      just before it, even when a later prediction raises. */
  lemma {:induction false} LastWriteWins<R, C, L, M>(hd: Registry<R, C, L, M>, results: seq<Option<Prediction<R, C>>>, k: nat,
                                                    day: int, h: nat, levelOf: map<int, R> -> L)
    requires k < |results| && results[k].Some?
    requires results[k].value.name !in PresentNames(results[k + 1..])
    requires MergeAll(hd, results[..k + 1], day, h, levelOf).Completed?
    ensures var p := results[k].value;
            var before := MergeAll(hd, results[..k], day, h, levelOf).registry;
            var after := MergeAll(hd, results, day, h, levelOf).registry;
            && p.name in before && p.name in after
            && Reconciled(before[p.name], after[p.name], p, day, h, levelOf)
  {
    var p := results[k].value;
    MergeThrough(hd, results, k, day, h, levelOf);
    SplitAfter(hd, results, k, day, h, levelOf);
    var upto := MergeAll(hd, results[..k + 1], day, h, levelOf).registry;
    var tail := MergeAll(upto, results[k + 1..], day, h, levelOf);
    assert tail.registry[p.name] == upto[p.name];
  }

  /** The last present prediction naming `n`. */
  lemma LastOccurrence<R, C>(results: seq<Option<Prediction<R, C>>>, n: string) returns (k: nat)
    requires n in PresentNames(results)
    ensures k < |results| && results[k].Some? && results[k].value.name == n
    ensures n !in PresentNames(results[k + 1..])
  {
    var j :| 0 <= j < |results| && results[j].Some? && results[j].value.name == n;
    k := j;
    var i := j + 1;
    while i < |results|
      invariant k < i <= |results|
      invariant results[k].Some? && results[k].value.name == n
      invariant forall t :: k < t < i ==> !(results[t].Some? && results[t].value.name == n)
    {
      if results[i].Some? && results[i].value.name == n {
        k := i;
      }
      i := i + 1;
    }
    var later := results[k + 1..];
    forall t | 0 <= t < |later| && later[t].Some?
      ensures later[t].value.name != n
    {
      assert later[t] == results[k + 1 + t];
    }
  }

  /** After a merge that runs to the end, every human named by a present
      prediction was updated on this day, holds the clusters of the last
      prediction naming it, and has an empty contact book. */
  lemma {:induction false} EveryNamedHumanUpdated<R, C, L, M>(hd: Registry<R, C, L, M>, results: seq<Option<Prediction<R, C>>>,
                                                             day: int, h: nat, levelOf: map<int, R> -> L)
    requires WellFormed(results, hd.Keys, h)
    ensures forall n :: n in PresentNames(results) ==>
              var after := MergeAll(hd, results, day, h, levelOf).registry;
              && n in after
              && after[n].lastRiskUpdate == day
              && after[n].contactBook == ContactBook([], [])
              && exists k :: 0 <= k < |results| && results[k].Some? && results[k].value.name == n
                               && n !in PresentNames(results[k + 1..])
                               && after[n].clusters == results[k].value.clusters
  {
    forall n | n in PresentNames(results)
      ensures var after := MergeAll(hd, results, day, h, levelOf).registry;
              && n in after
              && after[n].lastRiskUpdate == day
              && after[n].contactBook == ContactBook([], [])
              && exists k :: 0 <= k < |results| && results[k].Some? && results[k].value.name == n
                               && n !in PresentNames(results[k + 1..])
                               && after[n].clusters == results[k].value.clusters
    {
      var k := LastOccurrence(results, n);
      var prefix := results[..k + 1];
      forall t | 0 <= t < |prefix| && prefix[t].Some?
        ensures prefix[t].value.name in hd.Keys && h <= |prefix[t].value.riskHistory|
      {
        assert prefix[t] == results[t];
      }
      LastWriteWins(hd, results, k, day, h, levelOf);
    }
  }
}

=== FILE: records.dfy ===
/**
 The data that one risk-prediction round reads and writes.

 Risk values (R), cluster payloads (C), derived risk levels (L), contact-book
 messages (M), serialized human state (S), the simulation start (T) and the
 symptom vocabulary (Y) are opaque: the dispatch-and-merge layer only moves
 them around and never inspects them.
 */
module Records {

  datatype Option<+T> = None | Some(value: T)

  /** A member of the population: its name, the time slots at which its risk
      is recomputed, and the rest of its state, which is only serialized. */
  datatype Human<S> = Human(name: string, timeSlots: set<int>, state: S)

  /** What `human.__getstate__()` hands to the backend: the serialized human,
      which carries its name. */
  datatype Snapshot<S> = Snapshot(name: string, state: S)

  /** One inference request, built per eligible human. */
  datatype Request<S, T, Y> = Request(
    start: T,
    currentDay: int,
    allPossibleSymptoms: Y,
    human: Snapshot<S>,
    collectTrainingData: bool,
    riskModel: string)

  /** A present backend result: `(name, risk_history, clusters)`, where
      `riskHistory[i]` is the risk `i` days before the current day. */
  datatype Prediction<R, C> = Prediction(name: string, riskHistory: seq<R>, clusters: C)

  /** The two pending-message lists of a human's contact book. */
  datatype ContactBook<M> = ContactBook(updateMessages: seq<M>, messages: seq<M>)

  /** The part of a human that the merge stage writes. */
  datatype AgentState<R, C, L, M> = AgentState(
    riskHistoryMap: map<int, R>,
    prevRiskHistoryMap: map<int, R>,
    riskLevel: L,
    clusters: C,
    lastRiskUpdate: int,
    contactBook: ContactBook<M>)

  /** The city's `hd` dictionary: human name to that human's mutable state. */
  type Registry<R, C, L, M> = map<string, AgentState<R, C, L, M>>

  /** The configuration values a round reads from the global and experiment
      configurations. */
  datatype Config = Config(
    useInferenceServer: bool,
    riskModel: string,
    collectTrainingData: bool,
    historyDays: nat)

  /** The model name for which results are merged back. */
  const Transformer: string := "transformer"

  /** The exceptions a round can raise. */
  datatype RoundError =
    | EmptyPopulation          // `humans[0]` on an empty population
    | BackendUnavailable       // a backend call raised
    | UnknownAgent(name: string)  // `hd[name]` with a name not in `hd`
    | ShortHistory(name: string)  // `risk_history[i]` past the end of the list

  /** How a round (or a part of it) ends. On an exception the registry is the
      state left behind at the moment it was raised: earlier writes stay. */
  datatype Outcome<R, C, L, M> =
    | Completed(registry: Registry<R, C, L, M>)
    | Aborted(error: RoundError, registry: Registry<R, C, L, M>)
}

=== FILE: round.dfy ===
/**
 One risk-prediction round: build the requests of the scheduled humans, send
 them to a backend, and merge the predictions back into the humans' states.
 */
module Pipeline {
  import opened Records
  import opened Eligibility
  import opened Batching
  import opened Backends
  import opened Reconcile

  /** The outcome of a round. The population is read through `humans[0]`, so
      an empty population raises before anything else; a failing backend
      call raises before any state is written; a risk model other than the
      transformer leaves every state as it was. */
  function RoundOutcome<S, T, Y, R, C, L, M>(humans: seq<Human<S>>, hd: Registry<R, C, L, M>, start: T, day: int,
                                             slot: int, symptoms: Y, cfg: Config,
                                             remote: Backend<S, T, Y, R, C>, local: Backend<S, T, Y, R, C>,
                                             levelOf: map<int, R> -> L): (r: Outcome<R, C, L, M>)
    ensures r.registry.Keys == hd.Keys
    ensures |humans| == 0 ==> r == Aborted(EmptyPopulation, hd)
    ensures cfg.riskModel != Transformer ==> r.registry == hd
    ensures r.Aborted? && (r.error.BackendUnavailable? || r.error.EmptyPopulation?) ==> r.registry == hd
  {
    if |humans| == 0 then Aborted(EmptyPopulation, hd)
    else
      match Dispatch(Requests(humans, slot, start, day, symptoms, cfg), cfg.useInferenceServer, remote, local)
      case Unavailable => Aborted(BackendUnavailable, hd)
      case Answered(results) =>
        if cfg.riskModel != Transformer then Completed(hd)
        else MergeAll(hd, results, day, cfg.historyDays, levelOf)
  }

  /** The source's function body, stage by stage. */
  method IntegratedRiskPred<S, T, Y, R, C, L, M>(humans: seq<Human<S>>, hd: Registry<R, C, L, M>, start: T, day: int,
                                                 slot: int, symptoms: Y, cfg: Config,
                                                 remote: Backend<S, T, Y, R, C>, local: Backend<S, T, Y, R, C>,
                                                 levelOf: map<int, R> -> L)
    returns (outcome: Outcome<R, C, L, M>)
    ensures outcome == RoundOutcome(humans, hd, start, day, slot, symptoms, cfg, remote, local, levelOf)
    ensures outcome.registry.Keys == hd.Keys
    ensures cfg.riskModel != Transformer ==> outcome.registry == hd
  {
    if |humans| == 0 {
      return Aborted(EmptyPopulation, hd);
    }
    var allParams := BuildRequests(humans, slot, start, day, symptoms, cfg);
    var results: Answers<R, C>;
    if cfg.useInferenceServer {
      var batched := PartitionBatches(allParams, BatchSize);
      var replies := ParallelMap(batched, remote);
      if replies.Unavailable? {
        return Aborted(BackendUnavailable, hd);
      }
      results := FlattenResults(replies.value);
    } else {
      var reply := local(allParams);
      if reply.Unavailable? {
        return Aborted(BackendUnavailable, hd);
      }
      results := reply.value;
    }
    if cfg.riskModel != Transformer {
      return Completed(hd);
    }
    outcome := MergeResults(hd, results, day, cfg.historyDays, levelOf);
  }

  /** Fail-fast: one failing batch on the server path aborts the round, and
      no human's state is written, whatever the other batches answered. */
  lemma OneFailingBatchAbortsRound<S, T, Y, R, C, L, M>(humans: seq<Human<S>>, hd: Registry<R, C, L, M>, start: T, day: int,
                                                        slot: int, symptoms: Y, cfg: Config,
                                                        remote: Backend<S, T, Y, R, C>, local: Backend<S, T, Y, R, C>,
                                                        levelOf: map<int, R> -> L, j: nat)
    requires |humans| > 0 && cfg.useInferenceServer
    requires j < |Chunks(Requests(humans, slot, start, day, symptoms, cfg), BatchSize)|
    requires remote(Chunks(Requests(humans, slot, start, day, symptoms, cfg), BatchSize)[j]).Unavailable?
    ensures RoundOutcome(humans, hd, start, day, slot, symptoms, cfg, remote, local, levelOf) == Aborted(BackendUnavailable, hd)
  {
  }

  /** With faithful backends, a round leaves the state of a human that is not
      scheduled at the current slot as it was. */
  lemma OnlyScheduledHumansChange<S(!new), T(!new), Y(!new), R, C, L, M>(
    humans: seq<Human<S>>, hd: Registry<R, C, L, M>, start: T, day: int, slot: int, symptoms: Y, cfg: Config,
    remote: Backend<S, T, Y, R, C>, local: Backend<S, T, Y, R, C>, levelOf: map<int, R> -> L, n: string)
    requires Faithful(remote) && Faithful(local)
    requires n in hd && n !in EligibleNames(humans, slot)
    ensures RoundOutcome(humans, hd, start, day, slot, symptoms, cfg, remote, local, levelOf).registry[n] == hd[n]
  {
    var params := Requests(humans, slot, start, day, symptoms, cfg);
    var reply := Dispatch(params, cfg.useInferenceServer, remote, local);
    if |humans| > 0 && reply.Answered? && cfg.riskModel == Transformer {
      DispatchMatches(params, cfg.useInferenceServer, remote, local);
      RequestsNameEligibleHumans(humans, slot, start, day, symptoms, cfg);
      var results := reply.value;
      forall k | 0 <= k < |results| && results[k].Some?
        ensures results[k].value.name != n
      {
        assert results[k].value.name == params[k].human.name;
      }
    }
  }

  /** When the backend that is called answers every request with a
      prediction for the requested human and the merge runs to the end, every
      scheduled human was updated on this day and has an empty contact book. */
  lemma EveryScheduledHumanUpdated<S(!new), T(!new), Y(!new), R, C, L, M>(
    humans: seq<Human<S>>, hd: Registry<R, C, L, M>, start: T, day: int, slot: int, symptoms: Y, cfg: Config,
    remote: Backend<S, T, Y, R, C>, local: Backend<S, T, Y, R, C>, levelOf: map<int, R> -> L)
    requires Faithful(remote) && Faithful(local)
    requires Dispatch(Requests(humans, slot, start, day, symptoms, cfg), cfg.useInferenceServer, remote, local).Answered?
    requires forall k :: 0 <= k < |Dispatch(Requests(humans, slot, start, day, symptoms, cfg), cfg.useInferenceServer, remote, local).value| ==>
               Dispatch(Requests(humans, slot, start, day, symptoms, cfg), cfg.useInferenceServer, remote, local).value[k].Some?
    requires cfg.riskModel == Transformer
    requires RoundOutcome(humans, hd, start, day, slot, symptoms, cfg, remote, local, levelOf).Completed?
    ensures forall h :: h in humans && Eligible(h, slot) ==>
              var after := RoundOutcome(humans, hd, start, day, slot, symptoms, cfg, remote, local, levelOf).registry;
              && h.name in after
              && after[h.name].lastRiskUpdate == day
              && after[h.name].contactBook == ContactBook([], [])
  {
    var params := Requests(humans, slot, start, day, symptoms, cfg);
    var results := Dispatch(params, cfg.useInferenceServer, remote, local).value;
    DispatchMatches(params, cfg.useInferenceServer, remote, local);
    assert RoundOutcome(humans, hd, start, day, slot, symptoms, cfg, remote, local, levelOf)
           == MergeAll(hd, results, day, cfg.historyDays, levelOf);
    EveryNamedHumanUpdated(hd, results, day, cfg.historyDays, levelOf);
    var selected := Select(humans, slot);
    forall h | h in humans && Eligible(h, slot)
      ensures h.name in PresentNames(results)
    {
      SelectMembership(humans, slot, h);
      var k :| 0 <= k < |selected| && selected[k] == h;
      assert params[k].human.name == h.name;
      assert results[k].Some? && results[k].value.name == h.name;
    }
  }

  /** The backend choice is invisible to the round when both backends apply
      the same per-request function. */
  lemma RoundIndependentOfBackend<S(!new), T(!new), Y(!new), R, C, L, M>(
    humans: seq<Human<S>>, hd: Registry<R, C, L, M>, start: T, day: int, slot: int, symptoms: Y,
    serverCfg: Config, localCfg: Config,
    remote: Backend<S, T, Y, R, C>, local: Backend<S, T, Y, R, C>, levelOf: map<int, R> -> L,
    g: Request<S, T, Y> -> Option<Prediction<R, C>>)
    requires Pointwise(remote, g) && Pointwise(local, g)
    requires serverCfg.useInferenceServer && !localCfg.useInferenceServer
    requires serverCfg.riskModel == localCfg.riskModel
    requires serverCfg.collectTrainingData == localCfg.collectTrainingData
    requires serverCfg.historyDays == localCfg.historyDays
    ensures RoundOutcome(humans, hd, start, day, slot, symptoms, serverCfg, remote, local, levelOf)
            == RoundOutcome(humans, hd, start, day, slot, symptoms, localCfg, remote, local, levelOf)
  {
    var params := Requests(humans, slot, start, day, symptoms, serverCfg);
    assert params == Requests(humans, slot, start, day, symptoms, localCfg);
    BackendsInterchangeable(params, remote, local, g);
  }
}
